=== FILE: README.md ===
# ME3000 inverter control, modelled in Dafny

A model of the Python scripts that drive a Sofar ME3000 battery inverter
over RS-485. The scripts talk to the inverter through a Modbus RTU library
and use the vendor's "write passive register" function for control. They
are:

- the inverter façade: the `ME3000` class in `me3000.py` and its
  module-level twin `ME3000.py`. These hold the register constants, the
  three control operations (auto, charge, discharge), the two bulk reads,
  and the state and battery-level reads;
- the charge-threshold file: a web page (`sofar.py`) writes it as
  `THRESHOLD=<n>` and reads it back. The overnight scheduler
  (`octopusgo.py`) reads it too, and replaces a value outside 20..100 (or
  a file that is missing, unreadable or does not parse) by 100;
- the scheduling rule in `octopusgo.py`: charge at 3000 W while the battery
  is below the threshold, and switch back to auto once it is reached while
  the inverter reports the CHARGE state;
- the end-of-window script `endoctopusgo.py`, which retries `set_auto`
  until one call gets through the transport (or raises);
- the telemetry script `me3000_mqtt.py` and its feed table in
  `MyME3000.py`. The script publishes selected holding-register words and
  reads the two current feeds as signed 16-bit values.

The Modbus library is not part of this model. Its `send_message` is an
oracle: a `Link` answers each request descriptor with `Ok(payload)` or
`Failed`. A request descriptor records the slave, the function, the address
and the value or register count. The link also says whether the library
builds a frame for a descriptor at all; the builder runs before the `try`,
so when it raises, the exception escapes the façade. A write answers with
the device's status word, and a read answers with a register list. Each
façade operation is a pure function of the link. It builds one
descriptor, raises if the library refuses it, asks the link, and
classifies the outcome the way the source's `try`/`except` does. The Python
behaviour the scripts rely on is modelled explicitly:

- negative tuple indices;
- the `IndexError` of an empty reply or of a state word past the name table;
- `x & 0xFF` on unbounded ints;
- `numpy.int16` on a register word;
- `str`, `int`, `readline` and `split("=")[-1]`.

Files: `py_values.dfy` (module `PyValues`), `py_text.dfy` (`PyText`),
`transport.dfy` (`Transport`), `inverter.dfy` (`Inverter`, me3000.py),
`inverter_functions.dfy` (`InverterFunctions`, ME3000.py), `threshold.dfy`
(`Threshold`, sofar.py and octopusgo.py lines 14-21), `schedule.dfy`
(`Schedule`, octopusgo.py), `retry.dfy` (`Retry`, endoctopusgo.py),
`site_config.dfy` (`SiteConfig`, MyME3000.py), `telemetry.dfy`
(`Telemetry`, me3000_mqtt.py).

Facts about the code that the model keeps:

- A state word outside 0..7 is not rejected: the name lookup is outside
  the `try`, so the failure sentinel -1 becomes "PERM FAULT", other words
  down to -8 wrap round, and 8 or more raises `IndexError`.
- A failed bulk read returns the int 0 (`PyInt(0)`), not a list.
- `set_charge` and `set_discharge` pass the value to the library
  unchecked. A value the library's request builder cannot encode raises
  there, before the `try`, and the exception escapes (`RequestError`).
- The scripts call `roo.disconnect()`, which the class does not define. No
  connect/disconnect lifecycle is modelled.

## Model

| member | source | states |
|---|---|---|
| `PyValues.Index` | me3000.py:122 | Python tuple indexing: defined exactly for -len..len-1; non-negative indices select that element |
| `PyValues.NegativeIndexCountsFromEnd` | me3000.py:122 | index -k names the element at len-k |
| `PyValues.LowByte` | octopusgo.py:40 | `x & 0x00FF` is the unique value in 0..255 congruent to x mod 256, for negative x too |
| `PyValues.ToInt16` | me3000_mqtt.py:53-54 | the signed reading is a 16-bit value congruent to the word; a word from 32768 up becomes word - 65536, smaller words are unchanged |
| `PyValues.ToWord` | me3000_mqtt.py:53-54 | the wire word for a signed value is in 0..65535 and congruent to it |
| `PyValues.WordSignedWord` | me3000_mqtt.py:53-54 | reading a word as signed and converting back restores the word |
| `PyValues.SignedWordSigned` | me3000_mqtt.py:53-54 | converting a signed 16-bit value to a word and reading it as signed restores the value |
| `PyText.DigitChar` | sofar.py:24 | a digit value 0..9 renders as a decimal digit character |
| `PyText.Decimal` | sofar.py:24 | `str(n)` for n >= 0 is a non-empty all-digit string without a leading zero |
| `PyText.DecimalRoundTrip` | sofar.py:14-24 | the decimal value of `str(n)` is n |
| `PyText.TrimStart` | sofar.py:14 | the leading whitespace skip of `int()` (space and tab through carriage return) removes exactly the leading whitespace and keeps a suffix |
| `PyText.TrimEnd` | sofar.py:14 | the trailing whitespace skip of `int()` removes exactly the trailing whitespace and keeps a prefix |
| `PyText.ParseInt` | sofar.py:14 | `int(s)` succeeds exactly when the text left after skipping surrounding whitespace is an optional sign followed by at least one digit |
| `PyText.ParseStrRoundTrip` | sofar.py:14-24 | `int(str(n)) == n` for every int |
| `PyText.ParseIgnoresSurroundingSpace` | sofar.py:14 | whitespace around a numeral, such as the newline that `readline` keeps, does not change what `int` returns |
| `PyText.SeparatorNotSkipped` | sofar.py:14 | a leading separator character 0x1C..0x1F is not whitespace to `int()`: the text fails to parse whatever follows |
| `PyText.FirstLine` | sofar.py:14 | `readline` returns a prefix that ends at the first newline and includes it, or the whole text when there is no newline |
| `PyText.FirstLineStopsAtNewline` | sofar.py:14 | `readline` on line + newline + rest returns line + newline |
| `PyText.LastField` | sofar.py:14 | `split("=")[-1]` is the longest '='-free suffix; whatever comes before it ends in '=' |
| `PyText.LastFieldAfterSeparator` | sofar.py:14-24 | text before the last '=' never reaches the last field |
| `Inverter.SetAuto` | me3000.py:41-52 | builds the write-passive request for the device's slave outside the `try`: it raises exactly when the library refuses the request. Otherwise ok is false exactly when the transport fails, and the response is then 0; on success the response is the status word unchanged |
| `Inverter.SetCharge` | me3000.py:55-66 | the same for the charge request carrying the caller's value: a value the library cannot encode raises, a transport failure gives (False, 0) |
| `Inverter.SetDischarge` | me3000.py:69-80 | the same for the discharge request carrying the caller's value |
| `Inverter.ReadHolding` | me3000.py:83-94 | raises exactly when the library refuses the request; otherwise ok exactly when the holding-block read gets through, and the response is then the register list unchanged, otherwise the int 0 |
| `Inverter.ReadInput` | me3000.py:97-108 | the same for the input-block read |
| `Inverter.GetInverterState` | me3000.py:111-122 | a refused request raises; failure gives (False, -1, "PERM FAULT"); a raw word 0..7 gives (True, raw, its name); -8..-1 wrap round; an empty reply or a word >= 8 or < -8 raises IndexError |
| `Inverter.GetBatteryPercentage` | me3000.py:125-136 | a refused request raises; failure gives (False, -1); otherwise the first word with no range check; an empty reply raises IndexError |
| `Inverter.RequestTable` | me3000.py:8-19 | each operation's request: write-passive 0x0103/0, 0x0102/charge, 0x0101/discharge; holding (0x0200, 69), input (0x10B0, 13); one register at 0x0200 and at 0x0210 |
| `Inverter.RegisterLayout` | me3000.py:8-19 | state and battery registers lie in the holding block at offsets 0 and 16; control registers lie outside both blocks; the three control requests never coincide |
| `Inverter.StateTable` | me3000.py:21-22 | eight pairwise distinct names in declared order; word 2 is "CHARGE"; index -1 gives "PERM FAULT" |
| `Inverter.OnlyOwnRequestMatters` | me3000.py:41-136 | each operation's result depends only on whether the library builds that operation's own request and on the link's answer to it |
| `Inverter.SingleReadsAgreeWithBlock` | me3000.py:83-136 | on a device answering from one register image, the battery read equals word 16 of the holding block; a state word 0..7 is word 0 of the block, with its name |
| `InverterFunctions.SetAuto` | ME3000.py:35-46 | raises exactly when the library refuses the write-passive request (slave, 0x0103, 0); otherwise ok exactly when it gets through, with the status word unchanged, or 0 on failure |
| `InverterFunctions.SetCharge` | ME3000.py:49-60 | the same for (slave, 0x0102, charge) |
| `InverterFunctions.SetDischarge` | ME3000.py:63-74 | the same for (slave, 0x0101, discharge) |
| `InverterFunctions.ReadHolding` | ME3000.py:77-88 | raises exactly when the library refuses the read of (0x0200, 69); otherwise ok exactly when it gets through, with the register list unchanged, or the int 0 on failure |
| `InverterFunctions.ReadInput` | ME3000.py:91-102 | the same for the read of (0x10B0, 13) |
| `InverterFunctions.GetInverterState` | ME3000.py:105-116 | a 3-tuple: a refused request raises; failure gives (False, -1, "PERM FAULT"); words 0..7 give their name, -8..-1 wrap round, anything else or an empty reply raises IndexError |
| `InverterFunctions.GetBatteryPercentage` | ME3000.py:119-130 | a refused request raises; failure gives (False, -1); otherwise the unchecked first word; an empty reply raises IndexError |
| `InverterFunctions.ConstantsAgreeWithClass` | ME3000.py:6-20 | every register constant and the state tuple equal the class's |
| `InverterFunctions.OperationsAgreeWithClass` | ME3000.py:35-130 | each module-level function returns exactly what the class method returns for an instance with the same port and slave |
| `Threshold.Serialise` | sofar.py:24 | the stored text starts with `THRESHOLD=` and has no newline |
| `Threshold.Opened` | sofar.py:13 | `open(..., "r")` yields the text exactly when the file exists and is readable |
| `Threshold.ReadThreshold` | sofar.py:11-18 | the integer after the last '=' of the first line; -1 when the file is missing or unreadable, or the text does not parse |
| `Threshold.WriteThreshold` | sofar.py:21-33 | succeeds exactly for 20..100 on a writable file. It then returns the value unchanged and the file holds `THRESHOLD=<n>`, readable as before; otherwise it returns -1 and the file is untouched |
| `Threshold.ParseSerialised` | sofar.py:11-29 | the reader recovers every serialised value |
| `Threshold.FurtherLinesIgnored` | sofar.py:14 | a stored value followed by a newline and any further lines still parses to that value |
| `Threshold.NoSeparatorInNumeral` | sofar.py:14-24 | a decimal numeral contains no '=', so the last field starts after the key |
| `Threshold.WriteThenRead` | sofar.py:11-29 | round trip: after a successful write to a readable file, the reader returns the value written |
| `Threshold.WriteOnlyFileNeverRead` | sofar.py:11-55 | on a file that can be written but not read, the write succeeds yet the reader returns -1, `/pct/` serves the 500 page and the scheduler uses 100 |
| `Threshold.ChargeThreshold` | octopusgo.py:14-21 | the scheduler's threshold is always in 20..100 |
| `Threshold.ChargeThresholdClampsRead` | octopusgo.py:14-21 | the scheduler's threshold is the web page's reading when that lies in 20..100; any other reading, -1 included, gives 100 |
| `Threshold.WrittenThresholdReachesScheduler` | octopusgo.py:14-21 | every value the web page accepts for a readable file reaches the scheduler unchanged |
| `Threshold.SetPct` | sofar.py:41-55 | with no argument it reads: "Current" with the value, or the 500 page on -1, and the file is untouched. With an argument it writes: "New" with the value exactly when the write succeeds, otherwise the 500 page |
| `Threshold.SetThenShow` | sofar.py:41-55 | setting a threshold through the page and then opening `/pct/` shows the value just set, for a readable and writable file |
| `Schedule.OctopusGo` | octopusgo.py:14-49 | an exception from the state read, then from the battery read, ends the run with that exception. After both reads, the run raises exactly when a command is due (the decision from the battery reading, the state word and the threshold) and the library refuses to build it; otherwise it completes with that decision as its command. The run uses the threshold the file gives after the fallback to 100. A failed battery read sends no command. Auto is sent only after a state read that answered 2. A command's reply is the façade's. A refusal is reported exactly when the reply got through with a non-zero low status byte |
| `Schedule.DecisionCases` | octopusgo.py:14-49 | with the file's threshold t: charge at 3000 W exactly when the battery read succeeds below t; auto exactly when it succeeds at or above t and the state read answered 2; no command exactly in the remaining cases |
| `Schedule.UnbuildableChargeRaises` | octopusgo.py:36-38 | when the battery reads below the threshold and the library cannot build the 3000 W charge request, the script ends with that exception rather than a failed status |
| `Schedule.NoAutoAfterStateFailure` | octopusgo.py:28-45 | after a failed state read the auto branch is never taken |
| `Schedule.FullBatteryNeverCharged` | octopusgo.py:17-38 | a battery at 100 % or more is never charged, whatever the file holds |
| `Schedule.ChargeMonotoneInThreshold` | octopusgo.py:36-38 | raising the threshold never turns a charge decision into anything else |
| `Retry.AutoReplies` | endoctopusgo.py:27 | attempt k is `set_auto` on the k-th link state |
| `Retry.FirstStop` | endoctopusgo.py:25-29 | the position of the first call that raised or got through, with every earlier one unanswered; None exactly when none stops the loop |
| `Retry.FirstStopUnique` | endoctopusgo.py:25-29 | a call that stops the loop, preceded only by unanswered ones, is the first stop |
| `Retry.RetrySetAuto` | endoctopusgo.py:24-31 | the loop ends right after the first call that gets through or raises, and every earlier call returned (False, 0). After a call that got through, attempts = its position + 1 and retval is that reply's low byte in 0..255; "Set auto failed" is printed exactly when retval != 0. A call whose request the library refuses ends the loop with that exception. With neither, it is still retrying |
| `Retry.EndOctopusGo` | endoctopusgo.py:11-31 | the state and battery reads change nothing except by raising, which ends the script before `set_auto`; otherwise the script ends as the retry loop does, an exception escaping `set_auto` included |
| `Retry.RefusalDoesNotRetry` | endoctopusgo.py:28-31 | the attempt count is fixed by the first transport success; the device's status byte never causes another attempt |
| `SiteConfig.TopicIndicesInBlock` | MyME3000.py:13-23 | every feed index is in 0..37, inside the 69-word holding block, and the last feed reads word 37 |
| `SiteConfig.TopicIndicesRise` | MyME3000.py:13-23 | feed indices rise strictly through the table |
| `SiteConfig.TopicNamesDistinct` | MyME3000.py:13-23 | feed names are pairwise distinct |
| `SiteConfig.TopicFormats` | MyME3000.py:13-23 | only 'H' and 'h' occur; exactly words 7 (current) and 15 (batt_current) are signed |
| `SiteConfig.CapacityFeedIsBatteryRegister` | MyME3000.py:3-17 | batt_capacity reads word 16 = battery register - holding base, unsigned; the slave id is 1 |
| `Telemetry.FeedValue` | me3000_mqtt.py:52-55 | a signed feed carries the two's-complement reading of its word; an unsigned feed carries the word unchanged |
| `Telemetry.AllMessages` | me3000_mqtt.py:51-57 | a complete run publishes one message per feed, in table order |
| `Telemetry.Refused` | me3000_mqtt.py:57-59 | the reported topics are among the published ones with a refused publish; none when all were accepted |
| `Telemetry.RefusedExtend` | me3000_mqtt.py:57-59 | one more publish adds its topic to the report exactly when refused |
| `Telemetry.PublishTable` | me3000_mqtt.py:51-59 | over any feed table with non-negative indices: feeds are published in table order, feed i as message i, up to the first feed whose word lies past the end of the reply, where the loop stops; the reported topics follow the broker's answers |
| `Telemetry.PublishTopics` | me3000_mqtt.py:51-59 | publishes feed i as message i. It crashes with IndexError exactly when the reply is too short for the last feed, after publishing the feeds before the first out-of-range one. Otherwise every feed is published. Refusals are only reported |
| `Telemetry.TopicsDistinct` | me3000_mqtt.py:56 | topics `emon/me3000/<name>` are pairwise distinct |
| `Telemetry.Me3000Mqtt` | me3000_mqtt.py:23-59 | a refused holding request raises before anything else; a failed holding read exits before any MQTT work or publish; a failed handshake publishes nothing; a complete run publishes all feeds in order; a short reply publishes the feeds before the first out-of-range one, in order, then raises IndexError |
| `Telemetry.ImageDevicePublishesAll` | me3000_mqtt.py:25-56 | on a device answering from one register image, every feed is published, and batt_capacity carries the value `get_battery_percentage` reads |

## Left out

- The Modbus RTU library (`rtu.write_passive_register`, `read_*_registers`, `send_message`): its framing, CRC16 and byte layouts are not part of this model. The link oracle stands in for it.
- Opening and closing the serial port (me3000.py:30-38, ME3000.py:24-32): hardware I/O. The port is part of the link.
- The MQTT handshake and polling loop (me3000_mqtt.py:14-21, 31-46). The handshake outcome is a boolean parameter and the broker's publish answers are a sequence; the broker credentials are not modelled.
- Flask routing and template rendering. A page is the template's verb and value, or the 500 error page.
- The printed text, `datetime` and `hex`: they do not affect control flow. Which messages get printed is modelled (`reported`, `rejected`, `Refused`).
- query.py: a demo script that only sequences I/O.
- Python `int()` accepts underscores between digits, non-ASCII digits and non-ASCII whitespace. The model accepts none of these: it skips only space and tab through carriage return, and models the optional sign.
- Telemetry.FeedValue: `numpy.int16` on a word in 32768..65535, the values the signed feeds exist for, depends on the NumPy version. Earlier versions wrap round; NumPy 2 raises OverflowError, so a negative current would crash the script mid-publish. The model follows the script's "convert to signed" comment and wraps modulo 2^16.
- Newline translation: both scripts open the threshold file in text mode, where "\r" and "\r\n" also end a line. The file's contents are modelled as the text after that translation, so `readline` only needs to stop at "\n".
- The Modbus library's request builders are not part of this model. Whether one accepts a request is an oracle (`Link.accepts`); the values it refuses are not modelled.
- `write_threshold` failing after `open(..., "w")` has already truncated the file is not modelled. An unwritable file is modelled as one that cannot be opened, so nothing is written. Whether a file can be read is a fixed flag that writing does not change.
- The endless retry of `endoctopusgo.py` when every call fails is modelled over a finite sequence of attempts, which ends as `StillRetrying`.
- Threshold.ReadThreshold: the value -1 is both the failure sentinel and the parse of a file holding `THRESHOLD=-1`. The model keeps this ambiguity, as the source does.

=== FILE: inverter.dfy ===
/**
 The `ME3000` class of me3000.py: the register constants of the vendor's
 passive protocol and the seven operations of the inverter façade. Each
 operation builds one request descriptor, hands it to the link, and turns
 the outcome into the class's `(status, response)` result.
 */
module Inverter {
  import opened PyValues
  import opened Transport

  // Control registers reached through "write passive register".
  const DischargeAddress: int := 0x0101
  const ChargeAddress: int := 0x0102
  const AutoAddress: int := 0x0103

  // The holding-register block and the two registers read on their own.
  const HoldingBase: int := 0x0200
  const HoldingCount: int := 69
  const StateAddress: int := 0x0200
  const BatteryAddress: int := 0x0210

  // The input-register block.
  const InputBase: int := 0x10B0
  const InputCount: int := 13

  /** Names of the inverter states, indexed by the raw state word. */
  const InverterStates: seq<string> :=
    ["WAIT", "CHECK CHARGE", "CHARGE", "CHECK DISCHARGE",
     "DISCHARGE", "EPS", "FAULT", "PERM FAULT"]

  /** The raw state word of "CHARGE". */
  const ChargingState: int := 2

  /** An `ME3000` instance: the open port (with the library behind it) and
      the slave id it was constructed with. */
  datatype Device = Device(link: Link, slave: int)

  /** The `(status, raw state, state name)` triple of `get_inverter_state`. */
  datatype StateReading = StateReading(ok: bool, raw: int, name: string)

  function AutoRequest(slave: int): Request
  {
    Request(slave, WritePassiveRegister, AutoAddress, 0)
  }

  function ChargeRequest(slave: int, watts: int): Request
  {
    Request(slave, WritePassiveRegister, ChargeAddress, watts)
  }

  function DischargeRequest(slave: int, watts: int): Request
  {
    Request(slave, WritePassiveRegister, DischargeAddress, watts)
  }

  function HoldingRequest(slave: int): Request
  {
    Request(slave, ReadHoldingRegisters, HoldingBase, HoldingCount)
  }

  function InputRequest(slave: int): Request
  {
    Request(slave, ReadInputRegisters, InputBase, InputCount)
  }

  function StateRequest(slave: int): Request
  {
    Request(slave, ReadHoldingRegisters, StateAddress, 1)
  }

  function BatteryRequest(slave: int): Request
  {
    Request(slave, ReadHoldingRegisters, BatteryAddress, 1)
  }

  /** `set_auto`: hand control back to the inverter. */
  function SetAuto(d: Device): (r: PyResult<Status<int>>)
    ensures r.Raised? <==> !d.link.accepts(AutoRequest(d.slave))
    ensures r.Raised? ==> r.exception == RequestError
    ensures r.Returned? ==> var o := d.link.write(AutoRequest(d.slave));
      && (r.value.ok <==> o.Ok?)
      && (o.Ok? ==> r.value.response == o.payload)
      && (o.Failed? ==> r.value.response == 0)
  {
    var q := AutoRequest(d.slave);
    if !d.link.accepts(q) then Raised(RequestError)
    else Returned(ControlStatus(d.link.write(q)))
  }

  /** `set_charge(charge)`: force charging at `watts`. The value goes to
      the library unchecked; a value it cannot encode raises. */
  function SetCharge(d: Device, watts: int): (r: PyResult<Status<int>>)
    ensures r.Raised? <==> !d.link.accepts(ChargeRequest(d.slave, watts))
    ensures r.Raised? ==> r.exception == RequestError
    ensures r.Returned? ==> var o := d.link.write(ChargeRequest(d.slave, watts));
      && (r.value.ok <==> o.Ok?)
      && (o.Ok? ==> r.value.response == o.payload)
      && (o.Failed? ==> r.value.response == 0)
  {
    var q := ChargeRequest(d.slave, watts);
    if !d.link.accepts(q) then Raised(RequestError)
    else Returned(ControlStatus(d.link.write(q)))
  }

  /** `set_discharge(discharge)`: force discharging at `watts`, unchecked
      as for `set_charge`. */
  function SetDischarge(d: Device, watts: int): (r: PyResult<Status<int>>)
    ensures r.Raised? <==> !d.link.accepts(DischargeRequest(d.slave, watts))
    ensures r.Raised? ==> r.exception == RequestError
    ensures r.Returned? ==> var o := d.link.write(DischargeRequest(d.slave, watts));
      && (r.value.ok <==> o.Ok?)
      && (o.Ok? ==> r.value.response == o.payload)
      && (o.Failed? ==> r.value.response == 0)
  {
    var q := DischargeRequest(d.slave, watts);
    if !d.link.accepts(q) then Raised(RequestError)
    else Returned(ControlStatus(d.link.write(q)))
  }

  /** `read_holding`: the whole holding block, or the int 0 on failure. */
  function ReadHolding(d: Device): (r: PyResult<Status<PyValue>>)
    ensures r.Raised? <==> !d.link.accepts(HoldingRequest(d.slave))
    ensures r.Raised? ==> r.exception == RequestError
    ensures r.Returned? ==> var o := d.link.read(HoldingRequest(d.slave));
      && (r.value.ok <==> o.Ok?)
      && (o.Ok? ==> r.value.response == PyList(o.payload))
      && (o.Failed? ==> r.value.response == PyInt(0))
  {
    var q := HoldingRequest(d.slave);
    if !d.link.accepts(q) then Raised(RequestError)
    else Returned(BulkStatus(d.link.read(q)))
  }

  /** `read_input`: the whole input block, or the int 0 on failure. */
  function ReadInput(d: Device): (r: PyResult<Status<PyValue>>)
    ensures r.Raised? <==> !d.link.accepts(InputRequest(d.slave))
    ensures r.Raised? ==> r.exception == RequestError
    ensures r.Returned? ==> var o := d.link.read(InputRequest(d.slave));
      && (r.value.ok <==> o.Ok?)
      && (o.Ok? ==> r.value.response == PyList(o.payload))
      && (o.Failed? ==> r.value.response == PyInt(0))
  {
    var q := InputRequest(d.slave);
    if !d.link.accepts(q) then Raised(RequestError)
    else Returned(BulkStatus(d.link.read(q)))
  }

  /** `get_inverter_state`. The name lookup sits outside the `try`: the
      failure sentinel -1 wraps round to the last name, and a raw word the
      table does not cover raises IndexError, as does an empty reply. */
  function GetInverterState(d: Device): (r: PyResult<StateReading>)
    ensures !d.link.accepts(StateRequest(d.slave)) ==> r == Raised(RequestError)
    ensures d.link.accepts(StateRequest(d.slave)) ==> var o := d.link.read(StateRequest(d.slave));
      && (o.Failed? ==> r == Returned(StateReading(false, -1, "PERM FAULT")))
      && (o.Ok? && |o.payload| > 0 && 0 <= o.payload[0] < 8 ==>
            r == Returned(StateReading(true, o.payload[0], InverterStates[o.payload[0]])))
      && (o.Ok? && |o.payload| > 0 && -8 <= o.payload[0] < 0 ==>
            r == Returned(StateReading(true, o.payload[0], InverterStates[8 + o.payload[0]])))
      && (o.Ok? && (|o.payload| == 0 || o.payload[0] >= 8 || o.payload[0] < -8) ==>
            r == Raised(IndexError))
  {
    var q := StateRequest(d.slave);
    if !d.link.accepts(q) then Raised(RequestError)
    else
      var s := WordsOrSentinel(d.link.read(q));
      if |s.response| == 0 then Raised(IndexError)
      else
        match Index(InverterStates, s.response[0])
        case Some(name) => Returned(StateReading(s.ok, s.response[0], name))
        case None => Raised(IndexError)
  }

  /** `get_battery_percentage`: the first word of a one-register read, not
      checked against 0..100; -1 when the exchange fails. */
  function GetBatteryPercentage(d: Device): (r: PyResult<Status<int>>)
    ensures !d.link.accepts(BatteryRequest(d.slave)) ==> r == Raised(RequestError)
    ensures d.link.accepts(BatteryRequest(d.slave)) ==> var o := d.link.read(BatteryRequest(d.slave));
      && (o.Failed? ==> r == Returned(Status(false, -1)))
      && (o.Ok? && |o.payload| > 0 ==> r == Returned(Status(true, o.payload[0])))
      && (o.Ok? && |o.payload| == 0 ==> r == Raised(IndexError))
  {
    var q := BatteryRequest(d.slave);
    if !d.link.accepts(q) then Raised(RequestError)
    else
      var s := WordsOrSentinel(d.link.read(q));
      if |s.response| == 0 then Raised(IndexError)
      else Returned(Status(s.ok, s.response[0]))
  }

  /** The request each operation sends, written out with its constants. */
  lemma RequestTable(slave: int, watts: int)
    ensures AutoRequest(slave) == Request(slave, WritePassiveRegister, 0x0103, 0)
    ensures ChargeRequest(slave, watts) == Request(slave, WritePassiveRegister, 0x0102, watts)
    ensures DischargeRequest(slave, watts) == Request(slave, WritePassiveRegister, 0x0101, watts)
    ensures HoldingRequest(slave) == Request(slave, ReadHoldingRegisters, 0x0200, 69)
    ensures InputRequest(slave) == Request(slave, ReadInputRegisters, 0x10B0, 13)
    ensures StateRequest(slave) == Request(slave, ReadHoldingRegisters, 0x0200, 1)
    ensures BatteryRequest(slave) == Request(slave, ReadHoldingRegisters, 0x0210, 1)
  {
  }

  predicate InHoldingBlock(a: int) { HoldingBase <= a < HoldingBase + HoldingCount }

  predicate InInputBlock(a: int) { InputBase <= a < InputBase + InputCount }

  /** The state and battery registers lie inside the holding block, at
      offsets 0 and 16; the control registers lie outside both blocks and
      the three control requests can never be confused with each other. */
  lemma RegisterLayout(slave: int, w1: int, w2: int, w3: int)
    ensures InHoldingBlock(StateAddress) && InHoldingBlock(BatteryAddress)
    ensures StateAddress - HoldingBase == 0 && BatteryAddress - HoldingBase == 16
    ensures !InHoldingBlock(DischargeAddress) && !InInputBlock(DischargeAddress)
    ensures !InHoldingBlock(ChargeAddress) && !InInputBlock(ChargeAddress)
    ensures !InHoldingBlock(AutoAddress) && !InInputBlock(AutoAddress)
    ensures AutoRequest(slave) != ChargeRequest(slave, w1)
    ensures ChargeRequest(slave, w2) != DischargeRequest(slave, w3)
    ensures DischargeRequest(slave, w3) != AutoRequest(slave)
  {
  }

  /** The state table: eight distinct names in declared order, so a name
      identifies its raw word; -1 lands on "PERM FAULT". */
  lemma StateTable()
    ensures |InverterStates| == 8
    ensures forall i, j :: 0 <= i < j < 8 ==> InverterStates[i] != InverterStates[j]
    ensures InverterStates[ChargingState] == "CHARGE"
    ensures Index(InverterStates, -1) == Some("PERM FAULT")
  {
  }

  /** Two links that agree on building a request and on exchanging it. */
  predicate SameWrite(a: Link, b: Link, q: Request)
  {
    a.accepts(q) == b.accepts(q) && a.write(q) == b.write(q)
  }

  predicate SameRead(a: Link, b: Link, q: Request)
  {
    a.accepts(q) == b.accepts(q) && a.read(q) == b.read(q)
  }

  /** Each operation's result is decided by what the library does with that
      operation's own request and nothing else. */
  lemma OnlyOwnRequestMatters(d: Device, e: Device, watts: int)
    requires d.slave == e.slave
    ensures SameWrite(d.link, e.link, AutoRequest(d.slave)) ==> SetAuto(d) == SetAuto(e)
    ensures SameWrite(d.link, e.link, ChargeRequest(d.slave, watts)) ==>
      SetCharge(d, watts) == SetCharge(e, watts)
    ensures SameWrite(d.link, e.link, DischargeRequest(d.slave, watts)) ==>
      SetDischarge(d, watts) == SetDischarge(e, watts)
    ensures SameRead(d.link, e.link, HoldingRequest(d.slave)) ==> ReadHolding(d) == ReadHolding(e)
    ensures SameRead(d.link, e.link, InputRequest(d.slave)) ==> ReadInput(d) == ReadInput(e)
    ensures SameRead(d.link, e.link, StateRequest(d.slave)) ==>
      GetInverterState(d) == GetInverterState(e)
    ensures SameRead(d.link, e.link, BatteryRequest(d.slave)) ==>
      GetBatteryPercentage(d) == GetBatteryPercentage(e)
  {
  }

  /** `count` consecutive words of a register image from `start`. */
  function Window(image: int -> int, start: int, count: int): (w: seq<int>)
    ensures |w| == if count < 0 then 0 else count
    ensures forall i :: 0 <= i < |w| ==> w[i] == image(start + i)
  {
    if count <= 0 then [] else seq(count, i => image(start + i))
  }

  /** A device that is always reachable, behind a library that builds every
      request, and that answers every read from one holding image and one
      input image, and every write with `status`. */
  function ImageLink(holding: int -> int, input: int -> int, status: int): Link
  {
    Link(
      (q: Request) => true,
      (q: Request) => Ok(status),
      (q: Request) => Ok(Window(if q.kind == ReadInputRegisters then input else holding, q.address, q.operand)))
  }

  /** On such a device the single-register reads agree with the words at
      offsets 0 and 16 of the bulk holding read. */
  lemma SingleReadsAgreeWithBlock(holding: int -> int, input: int -> int, status: int, slave: int)
    ensures var d := Device(ImageLink(holding, input, status), slave);
      && ReadHolding(d).Returned?
      && ReadHolding(d).value.ok
      && ReadHolding(d).value.response.PyList?
      && |ReadHolding(d).value.response.items| == HoldingCount
      && GetBatteryPercentage(d)
         == Returned(Status(true, ReadHolding(d).value.response.items[BatteryAddress - HoldingBase]))
      && (0 <= holding(StateAddress) < 8 ==>
            GetInverterState(d) == Returned(StateReading(true, ReadHolding(d).value.response.items[0],
                                                         InverterStates[holding(StateAddress)])))
  {
  }
}

=== FILE: inverter_functions.dfy ===
/**
 ME3000.py: the module-level twin of the `ME3000` class. It declares the
 register constants a second time and writes each operation as a function
 of an open port and a slave id. Its behaviour is the class's, which the
 lemmas at the end establish constant by constant and operation by
 operation.
 */
module InverterFunctions {
  import opened PyValues
  import opened Transport
  import Inverter

  const Discharge: int := 0x0101
  const Charge: int := 0x0102
  const Auto: int := 0x0103

  const HoldingBase: int := 0x0200
  const HoldingCount: int := 69
  const StateAddress: int := 0x0200
  const BatteryAddress: int := 0x0210

  const InputBase: int := 0x10B0
  const InputCount: int := 13

  const InverterStates: seq<string> :=
    ["WAIT", "CHECK CHARGE", "CHARGE", "CHECK DISCHARGE", "DISCHARGE",
     "EPS", "FAULT", "PERM FAULT"]

  function SetAuto(port: Link, slave: int): (r: PyResult<Status<int>>)
    ensures r.Raised? <==> !port.accepts(Request(slave, WritePassiveRegister, 0x0103, 0))
    ensures r.Raised? ==> r.exception == RequestError
    ensures r.Returned? ==> var o := port.write(Request(slave, WritePassiveRegister, 0x0103, 0));
      && (r.value.ok <==> o.Ok?)
      && (o.Ok? ==> r.value.response == o.payload)
      && (o.Failed? ==> r.value.response == 0)
  {
    var message := Request(slave, WritePassiveRegister, Auto, 0);
    if !port.accepts(message) then Raised(RequestError)
    else Returned(ControlStatus(port.write(message)))
  }

  function SetCharge(port: Link, slave: int, charge: int): (r: PyResult<Status<int>>)
    ensures r.Raised? <==> !port.accepts(Request(slave, WritePassiveRegister, 0x0102, charge))
    ensures r.Raised? ==> r.exception == RequestError
    ensures r.Returned? ==> var o := port.write(Request(slave, WritePassiveRegister, 0x0102, charge));
      && (r.value.ok <==> o.Ok?)
      && (o.Ok? ==> r.value.response == o.payload)
      && (o.Failed? ==> r.value.response == 0)
  {
    var message := Request(slave, WritePassiveRegister, Charge, charge);
    if !port.accepts(message) then Raised(RequestError)
    else Returned(ControlStatus(port.write(message)))
  }

  function SetDischarge(port: Link, slave: int, discharge: int): (r: PyResult<Status<int>>)
    ensures r.Raised? <==> !port.accepts(Request(slave, WritePassiveRegister, 0x0101, discharge))
    ensures r.Raised? ==> r.exception == RequestError
    ensures r.Returned? ==> var o := port.write(Request(slave, WritePassiveRegister, 0x0101, discharge));
      && (r.value.ok <==> o.Ok?)
      && (o.Ok? ==> r.value.response == o.payload)
      && (o.Failed? ==> r.value.response == 0)
  {
    var message := Request(slave, WritePassiveRegister, Discharge, discharge);
    if !port.accepts(message) then Raised(RequestError)
    else Returned(ControlStatus(port.write(message)))
  }

  function ReadHolding(port: Link, slave: int): (r: PyResult<Status<PyValue>>)
    ensures r.Raised? <==> !port.accepts(Request(slave, ReadHoldingRegisters, 0x0200, 69))
    ensures r.Raised? ==> r.exception == RequestError
    ensures r.Returned? ==> var o := port.read(Request(slave, ReadHoldingRegisters, 0x0200, 69));
      && (r.value.ok <==> o.Ok?)
      && (o.Ok? ==> r.value.response == PyList(o.payload))
      && (o.Failed? ==> r.value.response == PyInt(0))
  {
    var message := Request(slave, ReadHoldingRegisters, HoldingBase, HoldingCount);
    if !port.accepts(message) then Raised(RequestError)
    else Returned(BulkStatus(port.read(message)))
  }

  function ReadInput(port: Link, slave: int): (r: PyResult<Status<PyValue>>)
    ensures r.Raised? <==> !port.accepts(Request(slave, ReadInputRegisters, 0x10B0, 13))
    ensures r.Raised? ==> r.exception == RequestError
    ensures r.Returned? ==> var o := port.read(Request(slave, ReadInputRegisters, 0x10B0, 13));
      && (r.value.ok <==> o.Ok?)
      && (o.Ok? ==> r.value.response == PyList(o.payload))
      && (o.Failed? ==> r.value.response == PyInt(0))
  {
    var message := Request(slave, ReadInputRegisters, InputBase, InputCount);
    if !port.accepts(message) then Raised(RequestError)
    else Returned(BulkStatus(port.read(message)))
  }

  /** Returns the same 3-tuple as the class method: (status, raw, name). */
  function GetInverterState(port: Link, slave: int): (r: PyResult<Inverter.StateReading>)
    ensures !port.accepts(Request(slave, ReadHoldingRegisters, 0x0200, 1)) ==> r == Raised(RequestError)
    ensures port.accepts(Request(slave, ReadHoldingRegisters, 0x0200, 1)) ==>
      var o := port.read(Request(slave, ReadHoldingRegisters, 0x0200, 1));
      && (o.Failed? ==> r == Returned(Inverter.StateReading(false, -1, "PERM FAULT")))
      && (o.Ok? && |o.payload| > 0 && 0 <= o.payload[0] < 8 ==>
            r == Returned(Inverter.StateReading(true, o.payload[0], InverterStates[o.payload[0]])))
      && (o.Ok? && |o.payload| > 0 && -8 <= o.payload[0] < 0 ==>
            r == Returned(Inverter.StateReading(true, o.payload[0], InverterStates[8 + o.payload[0]])))
      && (o.Ok? && (|o.payload| == 0 || o.payload[0] >= 8 || o.payload[0] < -8) ==>
            r == Raised(IndexError))
  {
    var message := Request(slave, ReadHoldingRegisters, StateAddress, 1);
    if !port.accepts(message) then Raised(RequestError)
    else
      var s := WordsOrSentinel(port.read(message));
      if |s.response| == 0 then Raised(IndexError)
      else
        match Index(InverterStates, s.response[0])
        case Some(name) => Returned(Inverter.StateReading(s.ok, s.response[0], name))
        case None => Raised(IndexError)
  }

  function GetBatteryPercentage(port: Link, slave: int): (r: PyResult<Status<int>>)
    ensures !port.accepts(Request(slave, ReadHoldingRegisters, 0x0210, 1)) ==> r == Raised(RequestError)
    ensures port.accepts(Request(slave, ReadHoldingRegisters, 0x0210, 1)) ==>
      var o := port.read(Request(slave, ReadHoldingRegisters, 0x0210, 1));
      && (o.Failed? ==> r == Returned(Status(false, -1)))
      && (o.Ok? && |o.payload| > 0 ==> r == Returned(Status(true, o.payload[0])))
      && (o.Ok? && |o.payload| == 0 ==> r == Raised(IndexError))
  {
    var message := Request(slave, ReadHoldingRegisters, BatteryAddress, 1);
    if !port.accepts(message) then Raised(RequestError)
    else
      var s := WordsOrSentinel(port.read(message));
      if |s.response| == 0 then Raised(IndexError)
      else Returned(Status(s.ok, s.response[0]))
  }

  /** Every constant of the module equals its counterpart in the class. */
  lemma ConstantsAgreeWithClass()
    ensures Discharge == Inverter.DischargeAddress
    ensures Charge == Inverter.ChargeAddress
    ensures Auto == Inverter.AutoAddress
    ensures HoldingBase == Inverter.HoldingBase && HoldingCount == Inverter.HoldingCount
    ensures StateAddress == Inverter.StateAddress && BatteryAddress == Inverter.BatteryAddress
    ensures InputBase == Inverter.InputBase && InputCount == Inverter.InputCount
    ensures InverterStates == Inverter.InverterStates
  {
  }

  /** Each module-level function behaves exactly as the class method of
      an instance built from the same port and slave. */
  lemma OperationsAgreeWithClass(port: Link, slave: int, watts: int)
    ensures var d := Inverter.Device(port, slave);
      && SetAuto(port, slave) == Inverter.SetAuto(d)
      && SetCharge(port, slave, watts) == Inverter.SetCharge(d, watts)
      && SetDischarge(port, slave, watts) == Inverter.SetDischarge(d, watts)
      && ReadHolding(port, slave) == Inverter.ReadHolding(d)
      && ReadInput(port, slave) == Inverter.ReadInput(d)
      && GetInverterState(port, slave) == Inverter.GetInverterState(d)
      && GetBatteryPercentage(port, slave) == Inverter.GetBatteryPercentage(d)
  {
  }
}

=== FILE: py_text.dfy ===
/**
 The text operations the threshold file goes through: `str(n)` for a
 non-negative int, `int(s)` on a line fragment, `file.readline()` and
 `s.split("=")[-1]`.
 */
module PyText {
  import opened PyValues

  predicate IsDigit(c: char) { '0' <= c <= '9' }

  predicate AllDigits(s: string) { forall i :: 0 <= i < |s| ==> IsDigit(s[i]) }

  function DigitChar(d: nat): (c: char)
    requires d < 10
    ensures IsDigit(c)
  {
    ('0' as int + d) as char
  }

  function DigitValue(c: char): nat
    requires IsDigit(c)
  {
    c as int - '0' as int
  }

  /** The number a non-empty string of decimal digits denotes (leading
      zeros allowed, as `int("007")` allows them). */
  function DecimalValue(s: string): nat
    requires AllDigits(s)
  {
    if |s| == 0 then 0
    else DecimalValue(s[..|s| - 1]) * 10 + DigitValue(s[|s| - 1])
  }

  /** `str(n)` for a non-negative int: the canonical decimal numeral. */
  function Decimal(n: nat): (s: string)
    ensures |s| > 0 && AllDigits(s)
    ensures |s| > 1 ==> s[0] != '0'
  {
    if n < 10 then [DigitChar(n)] else Decimal(n / 10) + [DigitChar(n % 10)]
  }

  /** `str(n)` for any int: a minus sign in front of negative numbers. */
  function Str(n: int): string
  {
    if n < 0 then "-" + Decimal(-n) else Decimal(n)
  }

  /** `str` and the decimal reading are inverse on naturals. */
  lemma {:induction false} DecimalRoundTrip(n: nat)
    ensures DecimalValue(Decimal(n)) == n
  {
    if n >= 10 {
      var s := Decimal(n);
      var prefix := Decimal(n / 10);
      assert s[..|s| - 1] == prefix;
      DecimalRoundTrip(n / 10);
      assert DigitValue(s[|s| - 1]) == n % 10;
    }
  }

  /** The whitespace `int()` skips around the digits of an ASCII string:
      tab, line feed, vertical tab, form feed, carriage return and space
      (C's `isspace`). The separators 0x1C..0x1F, which `str.isspace()`
      also accepts, are not skipped. */
  predicate IsSpace(c: char)
  {
    c == ' ' || ('\t' <= c <= '\r')
  }

  /** The leading skip of `int()`: the suffix left after dropping leading
      whitespace. */
  function TrimStart(s: string): (r: string)
    ensures |r| <= |s| && r == s[|s| - |r|..]
    ensures forall i :: 0 <= i < |s| - |r| ==> IsSpace(s[i])
    ensures |r| > 0 ==> !IsSpace(r[0])
  {
    if |s| > 0 && IsSpace(s[0]) then TrimStart(s[1..]) else s
  }

  /** The trailing skip of `int()`: the prefix left after dropping
      trailing whitespace. */
  function TrimEnd(s: string): (r: string)
    ensures |r| <= |s| && r == s[..|r|]
    ensures forall i :: |r| <= i < |s| ==> IsSpace(s[i])
    ensures |r| > 0 ==> !IsSpace(r[|r| - 1])
  {
    if |s| > 0 && IsSpace(s[|s| - 1]) then TrimEnd(s[..|s| - 1]) else s
  }

  /** The text `int()` parses once both skips are done. */
  function Strip(s: string): string
  {
    TrimEnd(TrimStart(s))
  }

  /** What `int(s)` accepts once the surrounding whitespace is skipped: an
      optional sign and at least one decimal digit. */
  predicate IsIntLiteral(t: string)
  {
    if |t| > 0 && (t[0] == '+' || t[0] == '-') then |t| > 1 && AllDigits(t[1..])
    else |t| > 0 && AllDigits(t)
  }

  /** `int(s)` on a `str`: None where Python raises ValueError. */
  function ParseInt(s: string): (r: Option<int>)
    ensures r.Some? <==> IsIntLiteral(Strip(s))
  {
    var t := Strip(s);
    if |t| > 0 && (t[0] == '+' || t[0] == '-') then
      if |t| > 1 && AllDigits(t[1..]) then
        var magnitude: int := DecimalValue(t[1..]);
        Some(if t[0] == '-' then -magnitude else magnitude)
      else None
    else if |t| > 0 && AllDigits(t) then Some(DecimalValue(t))
    else None
  }

  lemma StripUnchanged(s: string)
    requires |s| > 0 && !IsSpace(s[0]) && !IsSpace(s[|s| - 1])
    ensures Strip(s) == s
  {
  }

  /** `int(str(n)) == n` for every int. */
  lemma ParseStrRoundTrip(n: int)
    ensures ParseInt(Str(n)) == Some(n)
  {
    if n < 0 {
      var d := Decimal(-n);
      var s := "-" + d;
      assert s[1..] == d;
      assert !IsSpace(s[|s| - 1]) by { assert s[|s| - 1] == d[|d| - 1]; }
      StripUnchanged(s);
      DecimalRoundTrip(-n);
    } else {
      var d := Decimal(n);
      assert IsDigit(d[0]) && IsDigit(d[|d| - 1]);
      StripUnchanged(d);
      DecimalRoundTrip(n);
    }
  }

  predicate AllSpace(s: string) { forall i :: 0 <= i < |s| ==> IsSpace(s[i]) }

  /** `int` ignores whitespace around the numeral, such as the newline
      that `readline` keeps. */
  lemma ParseIgnoresSurroundingSpace(before: string, s: string, after: string)
    requires |s| > 0 && !IsSpace(s[0]) && !IsSpace(s[|s| - 1])
    requires AllSpace(before) && AllSpace(after)
    ensures ParseInt(before + s + after) == ParseInt(s)
  {
    StripUnchanged(s);
    assert (s + after)[0] == s[0];
    TrimStartPadding(before, s + after);
    assert before + s + after == before + (s + after);
    TrimEndPadding(s, after);
    assert Strip(before + s + after) == Strip(s);
    ParseDependsOnlyOnStrip(before + s + after, s);
  }

  /** A leading separator 0x1C..0x1F is not whitespace to `int()`, so the
      text does not parse, whatever follows it. */
  lemma SeparatorNotSkipped(c: char, rest: string)
    requires '\U{001C}' <= c <= '\U{001F}'
    ensures ParseInt([c] + rest) == None
  {
    var s := [c] + rest;
    assert !IsSpace(s[0]);
    assert TrimStart(s) == s;
    var t := TrimEnd(s);
    assert |t| > 0;
    assert t[0] == c;
    assert !IsDigit(t[0]);
    assert !IsIntLiteral(t);
  }

  lemma ParseDependsOnlyOnStrip(a: string, b: string)
    requires Strip(a) == Strip(b)
    ensures ParseInt(a) == ParseInt(b)
  {
  }

  lemma {:induction false} TrimStartPadding(pad: string, s: string)
    requires AllSpace(pad)
    requires |s| > 0 && !IsSpace(s[0])
    ensures TrimStart(pad + s) == s
  {
    if |pad| > 0 {
      assert (pad + s)[1..] == pad[1..] + s;
      TrimStartPadding(pad[1..], s);
    } else {
      assert pad + s == s;
    }
  }

  lemma {:induction false} TrimEndPadding(s: string, pad: string)
    requires AllSpace(pad)
    requires |s| > 0 && !IsSpace(s[|s| - 1])
    ensures TrimEnd(s + pad) == s
  {
    if |pad| > 0 {
      var shorter := pad[..|pad| - 1];
      assert (s + pad)[..|s + pad| - 1] == s + shorter;
      TrimEndPadding(s, shorter);
    } else {
      assert s + pad == s;
    }
  }

  /** `f.readline()` on a file holding `s`: everything up to and including
      the first newline, or all of `s` when it has none. */
  function FirstLine(s: string): (r: string)
    ensures |r| <= |s| && r == s[..|r|]
    ensures forall i :: 0 <= i < |r| - 1 ==> r[i] != '\n'
    ensures |r| < |s| ==> |r| > 0 && r[|r| - 1] == '\n'
    ensures '\n' !in s ==> r == s
  {
    if |s| == 0 then ""
    else if s[0] == '\n' then "\n"
    else [s[0]] + FirstLine(s[1..])
  }

  /** `readline` stops at the first newline and keeps it. */
  lemma {:induction false} FirstLineStopsAtNewline(line: string, rest: string)
    requires '\n' !in line
    ensures FirstLine(line + "\n" + rest) == line + "\n"
  {
    var s := line + "\n" + rest;
    if |line| == 0 {
      assert s[0] == '\n';
    } else {
      assert s[0] == line[0] && line[0] != '\n';
      assert s[1..] == line[1..] + "\n" + rest;
      assert '\n' !in line[1..] by { assert forall i :: 0 <= i < |line[1..]| ==> line[1..][i] == line[i + 1]; }
      FirstLineStopsAtNewline(line[1..], rest);
      assert FirstLine(s) == [line[0]] + (line[1..] + "\n");
      assert [line[0]] + (line[1..] + "\n") == line + "\n";
    }
  }

  /** `s.split(sep)[-1]`: the longest suffix of `s` free of `sep`. */
  function LastField(s: string, sep: char): (r: string)
    ensures |r| <= |s| && r == s[|s| - |r|..]
    ensures sep !in r
    ensures |r| < |s| ==> s[|s| - |r| - 1] == sep
  {
    if |s| == 0 then ""
    else if s[|s| - 1] == sep then ""
    else LastField(s[..|s| - 1], sep) + [s[|s| - 1]]
  }

  /** Whatever precedes the last separator does not reach the last field. */
  lemma {:induction false} LastFieldAfterSeparator(head: string, sep: char, tail: string)
    requires sep !in tail
    ensures LastField(head + [sep] + tail, sep) == tail
  {
    var s := head + [sep] + tail;
    if |tail| > 0 {
      var shorter := tail[..|tail| - 1];
      assert s[..|s| - 1] == head + [sep] + shorter;
      assert sep !in shorter by { assert forall i :: 0 <= i < |shorter| ==> shorter[i] == tail[i]; }
      LastFieldAfterSeparator(head, sep, shorter);
      assert shorter + [tail[|tail| - 1]] == tail;
    }
  }
}

=== FILE: py_values.dfy ===
/**
 The part of Python's value semantics the inverter scripts lean on: optional
 values, calls that raise, the dynamically typed response slot of the
 façade's status tuples, sequence indexing with negative indices, `x & 0xFF`
 on unbounded integers, and the `numpy.int16` reinterpretation of a 16-bit
 register word.
 */
module PyValues {

  datatype Option<+T> = None | Some(value: T)

  /** The Python exceptions that escape the modelled code: an index past
      the end of a list or tuple, and whatever the Modbus library's request
      builder raises for arguments it cannot encode. */
  datatype PyException = IndexError | RequestError

  /** A Python call either returns a value or raises. */
  datatype PyResult<+T> = Returned(value: T) | Raised(exception: PyException)

  /** The response slot of a bulk read: a register list on success, the
      integer 0 that the `except` branch stores on failure. */
  datatype PyValue = PyInt(n: int) | PyList(items: seq<int>)

  /** `xs[i]` on a Python tuple or list: a negative index counts from the
      end, anything outside `-|xs| .. |xs|-1` raises IndexError (None). */
  function Index<T>(xs: seq<T>, i: int): (r: Option<T>)
    ensures r.Some? <==> -|xs| <= i < |xs|
    ensures 0 <= i < |xs| ==> r == Some(xs[i])
  {
    if 0 <= i < |xs| then Some(xs[i])
    else if -|xs| <= i < 0 then Some(xs[|xs| + i])
    else None
  }

  /** Index `-k` names the same element as index `|xs| - k`. */
  lemma NegativeIndexCountsFromEnd<T>(xs: seq<T>, k: int)
    requires 1 <= k <= |xs|
    ensures Index(xs, -k) == Index(xs, |xs| - k) == Some(xs[|xs| - k])
  {
  }

  /** `x & 0x00FF` on a Python int. Python's `&` acts on the infinite
      two's-complement expansion, so the result is the unique value in
      0..255 congruent to `x` modulo 256, negative `x` included. */
  function LowByte(x: int): (r: int)
    ensures 0 <= r < 256
    ensures (x - r) % 256 == 0
  {
    x % 256
  }

  const Int16Min: int := -0x8000
  const Int16Limit: int := 0x8000
  const WordLimit: int := 0x1_0000

  predicate IsWord(v: int) { 0 <= v < WordLimit }

  predicate IsInt16(v: int) { Int16Min <= v < Int16Limit }

  /** `numpy.int16(v)`: the two's-complement reading of a 16-bit word.
      Words from 0x8000 upward become negative; outside the word range the
      value is wrapped modulo 2^16 (the classic numpy behaviour). */
  function ToInt16(v: int): (r: int)
    ensures IsInt16(r)
    ensures (v - r) % WordLimit == 0
    ensures IsWord(v) ==> r == (if v >= Int16Limit then v - WordLimit else v)
  {
    (v + Int16Limit) % WordLimit - Int16Limit
  }

  /** The 16-bit word that carries a signed value on the wire. */
  function ToWord(s: int): (r: int)
    ensures IsWord(r)
    ensures (s - r) % WordLimit == 0
  {
    s % WordLimit
  }

  /** Reading a word as signed and writing it back gives the word. */
  lemma WordSignedWord(v: int)
    requires IsWord(v)
    ensures ToWord(ToInt16(v)) == v
  {
  }

  /** Writing a signed value as a word and reading it back gives the value. */
  lemma SignedWordSigned(s: int)
    requires IsInt16(s)
    ensures ToInt16(ToWord(s)) == s
  {
  }
}

=== FILE: retry.dfy ===
/**
 endoctopusgo.py: run at the end of the cheap-tariff window, it prints the
 inverter state and battery level, then calls `set_auto` until one call
 gets through the transport. The device's answer is only reported; a
 refusal does not cause another attempt. An exception from `set_auto`
 (the library refusing to build the request) ends the script.

 The link can change between attempts (a cable comes back, the device
 wakes up), so the attempts are given as the sequence of link states the
 successive calls meet. The source loops for ever while every call fails;
 a finite sequence in which none succeeds therefore ends as
 `StillRetrying`: the loop has not exited within those attempts.
 */
module Retry {
  import opened PyValues
  import opened Transport
  import opened Inverter

  /** How the retry loop ended: after `attempts` calls with
      `retval = response & 0xFF` and whether "Set auto failed" was printed,
      by an exception escaping the `attempts`-th call, or not yet. */
  datatype RetryEnd =
    | Exited(attempts: nat, retval: int, reported: bool)
    | Aborted(attempts: nat, exception: PyException)
    | StillRetrying

  /** The result of `set_auto` on each successive link state. */
  function AutoReplies(slave: int, attempts: seq<Link>): (replies: seq<PyResult<Status<int>>>)
    ensures |replies| == |attempts|
    ensures forall k :: 0 <= k < |attempts| ==> replies[k] == SetAuto(Device(attempts[k], slave))
  {
    seq(|attempts|, k requires 0 <= k < |attempts| => SetAuto(Device(attempts[k], slave)))
  }

  /** A call after which the loop does not go round again: it raised, or
      the exchange got through. */
  predicate Stops(x: PyResult<Status<int>>)
  {
    x.Raised? || x.value.ok
  }

  /** The position of the first call that stops the loop, if any. */
  function FirstStop(replies: seq<PyResult<Status<int>>>): (k: Option<nat>)
    ensures k.Some? ==> k.value < |replies| && Stops(replies[k.value])
    ensures k.Some? ==> forall j :: 0 <= j < k.value ==> !Stops(replies[j])
    ensures k.None? ==> forall j :: 0 <= j < |replies| ==> !Stops(replies[j])
  {
    if |replies| == 0 then None
    else if Stops(replies[0]) then Some(0)
    else
      match FirstStop(replies[1..])
      case None => None
      case Some(k) => Some(k + 1)
  }

  /** Reference definition of the loop's end: it stops right after the
      first call that raises or gets through, with that call's exception
      or low status byte. */
  function RetryOutcome(slave: int, attempts: seq<Link>): RetryEnd
  {
    var replies := AutoReplies(slave, attempts);
    match FirstStop(replies)
    case None => StillRetrying
    case Some(k) =>
      match replies[k]
      case Raised(e) => Aborted(k + 1, e)
      case Returned(status) =>
        var retval := LowByte(status.response);
        Exited(k + 1, retval, retval != 0)
  }

  /** A `set_auto` call whose exchange failed: `(False, 0)`. */
  predicate Unanswered(x: PyResult<Status<int>>)
  {
    x == Returned(Status(false, 0))
  }

  /** Lines 24-31, one `set_auto` per loop iteration. */
  method RetrySetAuto(slave: int, attempts: seq<Link>) returns (r: RetryEnd)
    ensures r == RetryOutcome(slave, attempts)
    ensures r.Exited? ==>
      && 1 <= r.attempts <= |attempts|
      && SetAuto(Device(attempts[r.attempts - 1], slave)).Returned?
      && SetAuto(Device(attempts[r.attempts - 1], slave)).value.ok
      && (forall j :: 0 <= j < r.attempts - 1 ==> Unanswered(SetAuto(Device(attempts[j], slave))))
      && 0 <= r.retval < 256
      && r.retval == LowByte(SetAuto(Device(attempts[r.attempts - 1], slave)).value.response)
      && (r.reported <==> r.retval != 0)
    ensures r.Aborted? ==>
      && 1 <= r.attempts <= |attempts|
      && r.exception == RequestError
      && !attempts[r.attempts - 1].accepts(AutoRequest(slave))
      && (forall j :: 0 <= j < r.attempts - 1 ==> Unanswered(SetAuto(Device(attempts[j], slave))))
    ensures r.StillRetrying? ==>
      forall j :: 0 <= j < |attempts| ==> Unanswered(SetAuto(Device(attempts[j], slave)))
  {
    var retval := -1;
    var reported := false;
    var raised: Option<PyException> := None;
    var i := 0;
    while retval < 0 && raised.None? && i < |attempts|
      invariant 0 <= i <= |attempts|
      invariant retval < 0 ==> retval == -1 && !reported
      invariant retval < 0 && raised.None? ==>
        forall j :: 0 <= j < i ==> Unanswered(SetAuto(Device(attempts[j], slave)))
      invariant raised.Some? ==>
        && retval < 0
        && i >= 1
        && SetAuto(Device(attempts[i - 1], slave)) == Raised(raised.value)
        && (forall j :: 0 <= j < i - 1 ==> Unanswered(SetAuto(Device(attempts[j], slave))))
      invariant retval >= 0 ==>
        && raised.None?
        && i >= 1
        && SetAuto(Device(attempts[i - 1], slave)).Returned?
        && SetAuto(Device(attempts[i - 1], slave)).value.ok
        && (forall j :: 0 <= j < i - 1 ==> Unanswered(SetAuto(Device(attempts[j], slave))))
        && retval == LowByte(SetAuto(Device(attempts[i - 1], slave)).value.response)
        && (reported <==> retval != 0)
    {
      match SetAuto(Device(attempts[i], slave)) {
        case Raised(e) =>
          raised := Some(e);
        case Returned(status) =>
          if status.ok {
            retval := LowByte(status.response);
            if retval != 0 {
              reported := true;
            }
          }
      }
      i := i + 1;
    }
    var replies := AutoReplies(slave, attempts);
    if raised.Some? {
      r := Aborted(i, raised.value);
      assert FirstStop(replies) == Some(i - 1) by {
        FirstStopUnique(replies, i - 1);
      }
    } else if retval < 0 {
      r := StillRetrying;
      assert FirstStop(replies).None?;
    } else {
      r := Exited(i, retval, reported);
      assert FirstStop(replies) == Some(i - 1) by {
        FirstStopUnique(replies, i - 1);
      }
    }
  }

  /** A call that stops the loop after only unanswered ones is the first. */
  lemma FirstStopUnique(replies: seq<PyResult<Status<int>>>, k: nat)
    requires k < |replies| && Stops(replies[k])
    requires forall j :: 0 <= j < k ==> !Stops(replies[j])
    ensures FirstStop(replies) == Some(k)
  {
  }

  /** The whole script: the two reads are only printed, so they matter
      only by raising, which ends the script before `set_auto`; an
      exception escaping `set_auto` ends it inside the loop. */
  method EndOctopusGo(d: Device, attempts: seq<Link>) returns (r: PyResult<RetryEnd>)
    ensures GetInverterState(d).Raised? ==> r == Raised(GetInverterState(d).exception)
    ensures GetInverterState(d).Returned? && GetBatteryPercentage(d).Raised? ==>
      r == Raised(GetBatteryPercentage(d).exception)
    ensures GetInverterState(d).Returned? && GetBatteryPercentage(d).Returned? ==>
      var e := RetryOutcome(d.slave, attempts);
      r == if e.Aborted? then Raised(e.exception) else Returned(e)
    ensures r.Returned? ==> !r.value.Aborted?
  {
    var state := GetInverterState(d);
    if state.Raised? {
      return Raised(state.exception);
    }
    var battery := GetBatteryPercentage(d);
    if battery.Raised? {
      return Raised(battery.exception);
    }
    var retry := RetrySetAuto(d.slave, attempts);
    if retry.Aborted? {
      r := Raised(retry.exception);
    } else {
      r := Returned(retry);
    }
  }

  /** The number of attempts is fixed by the transport alone: the device's
      status byte, refusal or not, never causes another attempt. */
  lemma RefusalDoesNotRetry(slave: int, attempts: seq<Link>, k: nat)
    requires k < |attempts|
    requires forall j :: 0 <= j <= k ==> attempts[j].accepts(AutoRequest(slave))
    requires attempts[k].write(AutoRequest(slave)).Ok?
    requires forall j :: 0 <= j < k ==> attempts[j].write(AutoRequest(slave)).Failed?
    ensures RetryOutcome(slave, attempts).Exited?
    ensures RetryOutcome(slave, attempts).attempts == k + 1
  {
  }
}

=== FILE: schedule.dfy ===
/**
 octopusgo.py: run at the start of the cheap-tariff window, it charges the
 battery at 3000 W while it is below the threshold, and hands control back
 to the inverter once the threshold is reached while the inverter reports
 the CHARGE state.
 */
module Schedule {
  import opened PyValues
  import opened Transport
  import opened Inverter
  import opened Threshold

  const ChargeWatts: int := 3000

  /** The control command the script issues, if any. */
  datatype Command = ChargeAt(watts: int) | SwitchToAuto

  /** Lines 33-49: the choice made from the battery reading, the raw state
      word read before it, and the threshold. */
  function Decide(battery: Status<int>, state: int, threshold: int): Option<Command>
  {
    if !battery.ok then None
    else if battery.response < threshold then Some(ChargeAt(ChargeWatts))
    else if state == ChargingState then Some(SwitchToAuto)
    else None
  }

  /** The device refused a command: the exchange succeeded and the low
      byte of the status word is non-zero. */
  predicate Rejected(reply: Status<int>)
  {
    reply.ok && LowByte(reply.response) != 0
  }

  function Issue(d: Device, c: Command): PyResult<Status<int>>
  {
    match c
    case ChargeAt(watts) => SetCharge(d, watts)
    case SwitchToAuto => SetAuto(d)
  }

  /** What one run of the script did: the threshold it used, the command it
      sent with the device's reply, and whether it reported a refusal. */
  datatype Run = Run(threshold: int, command: Option<Command>, reply: Option<Status<int>>, rejected: bool)

  /** The whole script. An IndexError from either read (an empty reply, or
      a state word outside the name table) ends it before any command; a
      command the library cannot build ends it with that exception. */
  function OctopusGo(disk: Disk, d: Device): (r: PyResult<Run>)
    ensures GetInverterState(d).Raised? ==> r == Raised(GetInverterState(d).exception)
    ensures GetInverterState(d).Returned? && GetBatteryPercentage(d).Raised? ==>
      r == Raised(GetBatteryPercentage(d).exception)
    ensures r.Raised? && GetInverterState(d).Returned? && GetBatteryPercentage(d).Returned? ==>
      r == Raised(RequestError)
    ensures GetInverterState(d).Returned? && GetBatteryPercentage(d).Returned? ==>
      var c := Decide(GetBatteryPercentage(d).value, GetInverterState(d).value.raw, ChargeThreshold(disk));
      && (r.Raised? <==> c.Some? && !d.link.accepts(CommandRequest(d.slave, c.value)))
      && (r.Returned? ==> r.value.command == c)
    ensures r.Returned? ==> r.value.threshold == ChargeThreshold(disk)
    ensures r.Returned? && d.link.read(BatteryRequest(d.slave)).Failed? ==> r.value.command.None?
    ensures r.Returned? && r.value.command == Some(SwitchToAuto) ==>
      && d.link.read(StateRequest(d.slave)).Ok?
      && d.link.read(StateRequest(d.slave)).payload[0] == ChargingState
    ensures r.Returned? && r.value.command.Some? ==>
      r.value.reply.Some? && Issue(d, r.value.command.value) == Returned(r.value.reply.value)
    ensures r.Returned? && r.value.command.None? ==> r.value.reply.None? && !r.value.rejected
    ensures r.Returned? && r.value.reply.Some? ==> (r.value.rejected <==> Rejected(r.value.reply.value))
    ensures r.Returned? && r.value.rejected ==>
      && r.value.command.Some?
      && d.link.write(CommandRequest(d.slave, r.value.command.value)).Ok?
      && LowByte(d.link.write(CommandRequest(d.slave, r.value.command.value)).payload) != 0
  {
    var threshold := ChargeThreshold(disk);
    match GetInverterState(d)
    case Raised(e) => Raised(e)
    case Returned(state) =>
      match GetBatteryPercentage(d)
      case Raised(e) => Raised(e)
      case Returned(battery) =>
        match Decide(battery, state.raw, threshold)
        case None => Returned(Run(threshold, None, None, false))
        case Some(c) =>
          match Issue(d, c)
          case Raised(e) => Raised(e)
          case Returned(reply) => Returned(Run(threshold, Some(c), Some(reply), Rejected(reply)))
  }

  function CommandRequest(slave: int, c: Command): Request
  {
    match c
    case ChargeAt(watts) => ChargeRequest(slave, watts)
    case SwitchToAuto => AutoRequest(slave)
  }

  /** The decision, case by case, in terms of what the link answered and
      the threshold the file gives. */
  lemma DecisionCases(disk: Disk, d: Device)
    requires OctopusGo(disk, d).Returned?
    ensures var run := OctopusGo(disk, d).value;
      var t := ChargeThreshold(disk);
      var b := d.link.read(BatteryRequest(d.slave));
      var s := d.link.read(StateRequest(d.slave));
      && (run.command == Some(ChargeAt(ChargeWatts)) <==> b.Ok? && b.payload[0] < t)
      && (run.command == Some(SwitchToAuto) <==>
            b.Ok? && b.payload[0] >= t && s.Ok? && s.payload[0] == ChargingState)
      && (run.command.None? <==>
            b.Failed? || (b.payload[0] >= t && (s.Failed? || s.payload[0] != ChargingState)))
  {
  }

  /** The charge request is built before the `try` of `set_charge`: when
      the library cannot build it, the script ends with that exception
      instead of reporting a failed exchange. */
  lemma UnbuildableChargeRaises(disk: Disk, d: Device)
    requires GetInverterState(d).Returned? && GetBatteryPercentage(d).Returned?
    requires GetBatteryPercentage(d).value.ok
    requires GetBatteryPercentage(d).value.response < ChargeThreshold(disk)
    requires !d.link.accepts(ChargeRequest(d.slave, ChargeWatts))
    ensures OctopusGo(disk, d) == Raised(RequestError)
  {
  }

  /** A failed state read leaves the raw word at -1, so the auto branch is
      closed: at most a charge can follow. */
  lemma NoAutoAfterStateFailure(disk: Disk, d: Device)
    requires d.link.read(StateRequest(d.slave)).Failed?
    requires OctopusGo(disk, d).Returned?
    ensures OctopusGo(disk, d).value.command != Some(SwitchToAuto)
  {
  }

  /** A battery at or above 100 % is never charged, whatever the file says,
      because the threshold never exceeds 100. */
  lemma FullBatteryNeverCharged(disk: Disk, d: Device)
    requires OctopusGo(disk, d).Returned?
    requires GetBatteryPercentage(d).Returned? && GetBatteryPercentage(d).value.response >= 100
    ensures OctopusGo(disk, d).value.command != Some(ChargeAt(ChargeWatts))
  {
  }

  /** Raising the threshold never turns a charge decision into anything else. */
  lemma ChargeMonotoneInThreshold(battery: Status<int>, state: int, t: int, t': int)
    requires t <= t'
    requires Decide(battery, state, t) == Some(ChargeAt(ChargeWatts))
    ensures Decide(battery, state, t') == Some(ChargeAt(ChargeWatts))
  {
  }
}

=== FILE: site_config.dfy ===
/**
 MyME3000.py: the site's configuration. Only the slave id and the table of
 telemetry feeds are modelled; the port path, file path and broker
 settings are strings the modelled logic never inspects.
 */
module SiteConfig {
  import Inverter

  const Slave: int := 0x01

  /** One telemetry feed: its word in the holding block, its feed name and
      its `struct` format letter ('H' unsigned, 'h' signed 16-bit). */
  datatype Topic = Topic(index: int, name: string, format: char)

  const Topics: seq<Topic> := [
    Topic(6, "voltage", 'H'),
    Topic(7, "current", 'h'),
    Topic(14, "batt_voltage", 'H'),
    Topic(15, "batt_current", 'h'),
    Topic(16, "batt_capacity", 'H'),
    Topic(25, "sell_grid", 'H'),
    Topic(26, "buy_grid", 'H'),
    Topic(27, "load_use", 'H'),
    Topic(36, "charge_total", 'H'),
    Topic(37, "discharge_total", 'H')
  ]

  /** The largest word any feed reads. */
  const LastTopicIndex: int := 37

  predicate IsSigned(t: Topic) { t.format == 'h' }

  /** Every feed reads a word of the 69-word holding block, and the last
      feed reads the largest of them. */
  lemma TopicIndicesInBlock()
    ensures forall i :: 0 <= i < |Topics| ==> 0 <= Topics[i].index <= LastTopicIndex < Inverter.HoldingCount
    ensures Topics[|Topics| - 1].index == LastTopicIndex
  {
  }

  /** The indices rise strictly through the table, so the feeds are
      published in register order and no word is published twice. */
  lemma TopicIndicesRise()
    ensures forall i, j :: 0 <= i < j < |Topics| ==> Topics[i].index < Topics[j].index
  {
  }

  /** Feed names are pairwise distinct. */
  lemma TopicNamesDistinct()
    ensures forall i, j :: 0 <= i < j < |Topics| ==> Topics[i].name != Topics[j].name
  {
  }

  /** Only the two format letters occur, and exactly the two current feeds
      (words 7 and 15) are signed. */
  lemma TopicFormats()
    ensures forall i :: 0 <= i < |Topics| ==> Topics[i].format == 'H' || Topics[i].format == 'h'
    ensures forall i :: 0 <= i < |Topics| ==>
      (IsSigned(Topics[i]) <==> Topics[i].index == 7 || Topics[i].index == 15)
    ensures Topics[1].name == "current" && Topics[3].name == "batt_current"
  {
  }

  /** The battery-capacity feed reads the battery-percentage register. */
  lemma CapacityFeedIsBatteryRegister()
    ensures Topics[4].name == "batt_capacity"
    ensures Topics[4].index == Inverter.BatteryAddress - Inverter.HoldingBase == 16
    ensures !IsSigned(Topics[4])
    ensures Slave == 1
  {
  }
}

=== FILE: telemetry.dfy ===
/**
 me3000_mqtt.py: read the holding block once and publish the words named
 in the feed table to the local MQTT broker, one message per feed, under
 `emon/me3000/<name>`. Signed feeds are reinterpreted as two's-complement
 16-bit values first. A refused publish is only reported.
 */
module Telemetry {
  import opened PyValues
  import opened Transport
  import opened Inverter
  import opened SiteConfig

  const TopicPrefix: string := "emon/me3000/"

  /** One `client.publish(topic, value)` call. */
  datatype Message = Message(topic: string, value: int)

  /** Lines 52-55: the feed's word, reinterpreted when the feed is signed. */
  function FeedValue(words: seq<int>, t: Topic): (v: int)
    requires 0 <= t.index < |words|
    ensures IsSigned(t) ==> IsInt16(v) && (v - words[t.index]) % WordLimit == 0
    ensures IsSigned(t) && IsWord(words[t.index]) && words[t.index] >= Int16Limit ==>
      v == words[t.index] - WordLimit
    ensures !IsSigned(t) || (0 <= words[t.index] < Int16Limit) ==> v == words[t.index]
  {
    if t.format == 'h' then ToInt16(words[t.index]) else words[t.index]
  }

  function MessageFor(words: seq<int>, t: Topic): Message
    requires 0 <= t.index < |words|
  {
    Message(TopicPrefix + t.name, FeedValue(words, t))
  }

  /** The messages of a complete run, in table order. */
  function AllMessages(words: seq<int>): (ms: seq<Message>)
    requires |words| > LastTopicIndex
    ensures |ms| == |Topics|
    ensures forall i :: 0 <= i < |Topics| ==> ms[i] == MessageFor(words, Topics[i])
  {
    TopicIndicesInBlock();
    seq(|Topics|, i requires 0 <= i < |Topics| => MessageFor(words, Topics[i]))
  }

  /** The topics whose publish the broker refused (`ret[0] != 0`), in the
      order they were printed. */
  function Refused(sent: seq<Message>, acked: seq<bool>): (f: seq<string>)
    requires |sent| <= |acked|
    ensures |f| <= |sent|
    ensures (forall i :: 0 <= i < |sent| ==> acked[i]) ==> f == []
    ensures forall s :: s in f ==> exists i :: 0 <= i < |sent| && !acked[i] && sent[i].topic == s
  {
    if |sent| == 0 then []
    else
      var k := |sent| - 1;
      Refused(sent[..k], acked) + (if acked[k] then [] else [sent[k].topic])
  }

  /** The loop of lines 51-59 over any feed table: feeds are published in
      table order until one reads a word past the end of the reply, where
      `me3000_response[topic[0]]` raises IndexError; `stop` is that feed's
      position, or the table's length when every feed was published. */
  method PublishTable(words: seq<int>, table: seq<Topic>, acked: seq<bool>)
    returns (sent: seq<Message>, refused: seq<string>, stop: nat)
    requires |acked| == |table|
    requires forall k :: 0 <= k < |table| ==> 0 <= table[k].index
    ensures stop <= |table| && |sent| == stop
    ensures forall k :: 0 <= k < stop ==> table[k].index < |words| && sent[k] == MessageFor(words, table[k])
    ensures stop < |table| ==> table[stop].index >= |words|
    ensures refused == Refused(sent, acked)
  {
    sent := [];
    refused := [];
    stop := 0;
    while stop < |table| && table[stop].index < |words|
      invariant 0 <= stop <= |table|
      invariant |sent| == stop
      invariant forall k :: 0 <= k < stop ==> table[k].index < |words| && sent[k] == MessageFor(words, table[k])
      invariant refused == Refused(sent, acked)
    {
      var message := MessageFor(words, table[stop]);
      RefusedExtend(sent, message, acked);
      sent := sent + [message];
      if !acked[stop] {
        refused := refused + [message.topic];
      }
      stop := stop + 1;
    }
  }

  /** Lines 51-59 on the site's feed table. `acked[i]` is the broker's
      answer to the i-th publish. A feed whose word lies past the end of the
      reply raises IndexError (`crashed`), after the feeds before it were
      published. */
  method PublishTopics(words: seq<int>, acked: seq<bool>)
    returns (sent: seq<Message>, refused: seq<string>, crashed: bool)
    requires |acked| == |Topics|
    ensures crashed <==> |words| <= LastTopicIndex
    ensures !crashed ==> sent == AllMessages(words)
    ensures |sent| <= |Topics|
    ensures forall i :: 0 <= i < |sent| ==>
      Topics[i].index < |words| && sent[i] == MessageFor(words, Topics[i])
    ensures crashed ==> |sent| < |Topics| && Topics[|sent|].index >= |words|
    ensures refused == Refused(sent, acked)
  {
    TopicIndicesInBlock();
    var stop;
    sent, refused, stop := PublishTable(words, Topics, acked);
    crashed := stop < |Topics|;
    if !crashed {
      assert Topics[|Topics| - 1].index < |words|;
      assert sent == AllMessages(words);
    }
  }

  lemma RefusedExtend(sent: seq<Message>, m: Message, acked: seq<bool>)
    requires |sent| < |acked|
    ensures Refused(sent + [m], acked) ==
      Refused(sent, acked) + (if acked[|sent|] then [] else [m.topic])
  {
  }

  /** Distinct feed names give distinct topics. */
  lemma {:induction false} TopicsDistinct(words: seq<int>)
    requires |words| > LastTopicIndex
    ensures forall i, j :: 0 <= i < j < |Topics| ==> AllMessages(words)[i].topic != AllMessages(words)[j].topic
  {
    var ms := AllMessages(words);
    TopicNamesDistinct();
    forall i, j | 0 <= i < j < |Topics| ensures ms[i].topic != ms[j].topic {
      var a := Topics[i].name;
      var b := Topics[j].name;
      assert (TopicPrefix + a)[|TopicPrefix|..] == a;
      assert (TopicPrefix + b)[|TopicPrefix|..] == b;
    }
  }

  /** How a run of the script ends. */
  datatype MqttEnd =
    | ReadRaised(exception: PyException)
    | ReadFailed
    | BrokerUnreachable
    | Published(sent: seq<Message>, refused: seq<string>)
    | Crashed(sent: seq<Message>, refused: seq<string>)

  /** The whole script; `connected` is the outcome of the broker handshake. */
  method Me3000Mqtt(d: Device, connected: bool, acked: seq<bool>) returns (r: MqttEnd)
    requires |acked| == |Topics|
    ensures r.ReadRaised? <==> ReadHolding(d).Raised?
    ensures r.ReadRaised? ==> r.exception == RequestError
    ensures r.ReadFailed? <==> ReadHolding(d).Returned? && !ReadHolding(d).value.ok
    ensures r.BrokerUnreachable? <==> ReadHolding(d).Returned? && ReadHolding(d).value.ok && !connected
    ensures r.Published? ==>
      && ReadHolding(d).Returned?
      && ReadHolding(d).value.response.PyList?
      && |ReadHolding(d).value.response.items| > LastTopicIndex
      && r.sent == AllMessages(ReadHolding(d).value.response.items)
      && r.refused == Refused(r.sent, acked)
    ensures r.Crashed? ==>
      && ReadHolding(d).Returned?
      && ReadHolding(d).value.response.PyList?
      && |ReadHolding(d).value.response.items| <= LastTopicIndex
      && |r.sent| < |Topics|
      && Topics[|r.sent|].index >= |ReadHolding(d).value.response.items|
      && (forall i :: 0 <= i < |r.sent| ==>
            && Topics[i].index < |ReadHolding(d).value.response.items|
            && r.sent[i] == MessageFor(ReadHolding(d).value.response.items, Topics[i]))
      && r.refused == Refused(r.sent, acked)
  {
    var holding := ReadHolding(d);
    if holding.Raised? {
      return ReadRaised(holding.exception);
    }
    var status := holding.value;
    if !status.ok {
      return ReadFailed;
    }
    if !connected {
      return BrokerUnreachable;
    }
    var sent, refused, crashed := PublishTopics(status.response.items, acked);
    if crashed {
      r := Crashed(sent, refused);
    } else {
      r := Published(sent, refused);
    }
  }

  /** On a device answering from one register image the full block comes
      back, so every feed is published, and the capacity feed carries the
      same word `get_battery_percentage` reads. */
  lemma ImageDevicePublishesAll(holding: int -> int, input: int -> int, status: int, slave: int)
    ensures var d := Device(ImageLink(holding, input, status), slave);
      && ReadHolding(d).Returned?
      && ReadHolding(d).value.ok
      && |ReadHolding(d).value.response.items| > LastTopicIndex
      && AllMessages(ReadHolding(d).value.response.items)[4]
         == Message("emon/me3000/batt_capacity", GetBatteryPercentage(d).value.response)
  {
  }
}

=== FILE: threshold.dfy ===
/**
 The charge-threshold file shared by the web page (sofar.py), which reads
 and writes it, and the overnight scheduler (octopusgo.py), which reads it
 and falls back to a full charge. The file holds one line `THRESHOLD=<n>`;
 both readers take the integer after the last `=` of the first line.
 */
module Threshold {
  import opened PyValues
  import opened PyText

  /** The threshold file as the scripts meet it: its text (None when the
      file does not exist), whether an existing file can be opened for
      reading, and whether it can be opened for writing (which creates a
      missing file). Both scripts open the file in text mode, so `text` is
      the decoded text after Python's newline translation: every line end,
      "\r" and "\r\n" included, reads as "\n". */
  datatype Disk = Disk(text: Option<string>, readable: bool, writable: bool)

  const Key: string := "THRESHOLD="
  const MinThreshold: int := 20
  const MaxThreshold: int := 100
  /** The scheduler's fallback: charge fully. */
  const DefaultThreshold: int := 100
  /** What `read_threshold` and `write_threshold` return on failure. */
  const Unavailable: int := -1

  predicate Accepted(pct: int) { MinThreshold <= pct <= MaxThreshold }

  /** `int(tfile.readline().split("=")[-1])`, None where Python raises. */
  function ParseThreshold(contents: string): Option<int>
  {
    ParseInt(LastField(FirstLine(contents), '='))
  }

  /** What `open(THRESHOLD_FILE, "r")` yields: the file's text, or None
      where it raises because the file is missing or unreadable. */
  function Opened(disk: Disk): (t: Option<string>)
    ensures t.Some? <==> disk.readable && disk.text.Some?
    ensures t.Some? ==> t.value == disk.text.value
  {
    if disk.readable then disk.text else None
  }

  /** The text `write_threshold` stores for `pct`. */
  function Serialise(pct: nat): (s: string)
    ensures '\n' !in s
    ensures |s| > |Key| && s[..|Key|] == Key
  {
    Key + Decimal(pct)
  }

  /** sofar.py `read_threshold`: the parsed value, or -1 when the file
      cannot be opened or its first line does not parse. */
  function ReadThreshold(disk: Disk): (r: int)
    ensures !disk.readable || disk.text.None? ==> r == Unavailable
    ensures disk.readable && disk.text.Some? && ParseThreshold(disk.text.value).Some? ==>
      r == ParseThreshold(disk.text.value).value
    ensures disk.readable && disk.text.Some? && ParseThreshold(disk.text.value).None? ==>
      r == Unavailable
  {
    match Opened(disk)
    case None => Unavailable
    case Some(text) =>
      match ParseThreshold(text)
      case Some(t) => t
      case None => Unavailable
  }

  /** The result of `write_threshold` and the disk after it. */
  datatype Written = Written(ret: int, disk: Disk)

  /** sofar.py `write_threshold`: values outside 20..100 are refused
      without touching the file; an accepted value replaces the file's
      text with its serialisation and is returned unchanged. Whether the
      file can be read is not changed by writing it. */
  function WriteThreshold(pct: int, disk: Disk): (w: Written)
    ensures w.ret != Unavailable <==> Accepted(pct) && disk.writable
    ensures w.ret != Unavailable ==>
      w.ret == pct && w.disk == Disk(Some(Serialise(pct)), disk.readable, true)
    ensures w.ret == Unavailable ==> w.disk == disk
  {
    if Accepted(pct) then
      if disk.writable then Written(pct, disk.(text := Some(Serialise(pct))))
      else Written(Unavailable, disk)
    else Written(Unavailable, disk)
  }

  /** The reader recovers any serialised value. */
  lemma {:induction false} ParseSerialised(pct: nat)
    ensures ParseThreshold(Serialise(pct)) == Some(pct)
  {
    var s := Serialise(pct);
    assert FirstLine(s) == s;
    assert s == "THRESHOLD" + ['='] + Decimal(pct);
    assert '=' !in Decimal(pct) by {
      var d := Decimal(pct);
      forall i | 0 <= i < |d| ensures d[i] != '=' { assert IsDigit(d[i]); }
    }
    LastFieldAfterSeparator("THRESHOLD", '=', Decimal(pct));
    ParseStrRoundTrip(pct);
  }

  /** Only the first line counts, and the newline that ends it is
      ignored: a stored value followed by further lines still parses. */
  lemma FurtherLinesIgnored(pct: nat, rest: string)
    ensures ParseThreshold(Serialise(pct) + "\n" + rest) == Some(pct)
  {
    FirstLineStopsAtNewline(Serialise(pct), rest);
    StoredLineField(pct);
    NumeralLineParses(pct);
  }

  /** The last field of a stored line, newline kept, is the numeral with
      that newline. */
  lemma StoredLineField(pct: nat)
    ensures LastField(Serialise(pct) + "\n", '=') == Decimal(pct) + "\n"
  {
    var d := Decimal(pct);
    var field := d + "\n";
    assert Serialise(pct) + "\n" == "THRESHOLD" + ['='] + field;
    NoSeparatorInNumeral(d, "\n");
    LastFieldAfterSeparator("THRESHOLD", '=', field);
  }

  /** `int()` ignores the newline `readline` keeps after the numeral. */
  lemma NumeralLineParses(pct: nat)
    ensures ParseInt(Decimal(pct) + "\n") == Some(pct)
  {
    var d := Decimal(pct);
    assert !IsSpace(d[0]) && !IsSpace(d[|d| - 1]) by { assert IsDigit(d[0]) && IsDigit(d[|d| - 1]); }
    ParseIgnoresSurroundingSpace("", d, "\n");
    assert "" + d + "\n" == d + "\n";
    ParseStrRoundTrip(pct);
    assert Str(pct) == d;
  }

  lemma NoSeparatorInNumeral(d: string, tail: string)
    requires AllDigits(d) && '=' !in tail
    ensures '=' !in d + tail
  {
  }

  /** Round trip: after a successful write, `read_threshold` returns the
      value written. */
  lemma WriteThenRead(pct: int, disk: Disk)
    requires Accepted(pct) && disk.readable && disk.writable
    ensures ReadThreshold(WriteThreshold(pct, disk).disk) == pct
  {
    ParseSerialised(pct);
  }

  /** A file that can be written but not read: the write succeeds, yet
      every later read fails, so the page shows the 500 page and the
      scheduler falls back to a full charge. */
  lemma WriteOnlyFileNeverRead(pct: int, disk: Disk)
    requires Accepted(pct) && !disk.readable && disk.writable
    ensures WriteThreshold(pct, disk).ret == pct
    ensures ReadThreshold(WriteThreshold(pct, disk).disk) == Unavailable
    ensures ChargeThreshold(WriteThreshold(pct, disk).disk) == DefaultThreshold
    ensures SetPct(None, SetPct(Some(pct), disk).1).0 == ServerError
  {
  }

  /** octopusgo.py lines 14-21: the threshold the scheduler charges to. */
  function ChargeThreshold(disk: Disk): (t: int)
    ensures MinThreshold <= t <= MaxThreshold
  {
    match Opened(disk)
    case None => DefaultThreshold
    case Some(text) =>
      match ParseThreshold(text)
      case None => DefaultThreshold
      case Some(t) => if Accepted(t) then t else DefaultThreshold
  }

  /** The scheduler's threshold is the web page's reading, clamped: an
      accepted reading is used as is, anything else (the -1 of a failed
      read included) becomes 100. */
  lemma ChargeThresholdClampsRead(disk: Disk)
    ensures ChargeThreshold(disk) ==
      if Accepted(ReadThreshold(disk)) then ReadThreshold(disk) else DefaultThreshold
  {
  }

  /** Every value the web page stores reaches the scheduler unchanged. */
  lemma WrittenThresholdReachesScheduler(pct: int, disk: Disk)
    requires Accepted(pct) && disk.readable && disk.writable
    ensures ChargeThreshold(WriteThreshold(pct, disk).disk) == pct
  {
    WriteThenRead(pct, disk);
    ChargeThresholdClampsRead(WriteThreshold(pct, disk).disk);
  }

  /** A page of the web interface: the threshold with a verb, or the
      error template served with status 500. */
  datatype Page = PctPage(opstr: string, pctval: int) | ServerError

  /** sofar.py `set_pct`: `/pct/` shows the stored threshold, `/pct/<n>`
      stores a new one; either failure gives the 500 page. */
  function SetPct(arg: Option<nat>, disk: Disk): (r: (Page, Disk))
    ensures arg.None? ==> r.1 == disk
    ensures arg.None? ==>
      r.0 == if ReadThreshold(disk) != Unavailable then PctPage("Current", ReadThreshold(disk)) else ServerError
    ensures arg.Some? ==>
      r.0 == if Accepted(arg.value) && disk.writable then PctPage("New", arg.value) else ServerError
    ensures arg.Some? ==> r.1 == WriteThreshold(arg.value, disk).disk
  {
    match arg
    case None =>
      var retval := ReadThreshold(disk);
      if retval != Unavailable then (PctPage("Current", retval), disk) else (ServerError, disk)
    case Some(pct) =>
      var w := WriteThreshold(pct, disk);
      if w.ret != Unavailable then (PctPage("New", w.ret), w.disk) else (ServerError, w.disk)
  }

  /** Setting a threshold through the page and then opening `/pct/` shows
      the value just set. */
  lemma SetThenShow(pct: nat, disk: Disk)
    requires Accepted(pct) && disk.readable && disk.writable
    ensures SetPct(None, SetPct(Some(pct), disk).1).0 == PctPage("Current", pct)
  {
    WriteThenRead(pct, disk);
  }
}

=== FILE: transport.dfy ===
/**
 The boundary to the Modbus RTU library. A request descriptor records what
 would be framed (function, slave, address, value or quantity). Building
 the frame may raise, for arguments the library cannot encode; that call
 sits before the `try` in every façade operation, so its exception escapes.
 The exchange on the serial line is one oracle call that answers with a
 payload or fails; the `try`/`except` around it is the classification below.
 */
module Transport {
  import opened PyValues

  /** What `send_message` did with one request. */
  datatype Outcome<+T> = Ok(payload: T) | Failed

  /** The three request builders the façade uses: the vendor's "write
      passive register" and the two standard register reads. */
  datatype FunctionKind = WritePassiveRegister | ReadHoldingRegisters | ReadInputRegisters

  /** A request descriptor. `operand` is the value written for a
      write-passive request and the register count for a read. */
  datatype Request = Request(slave: int, kind: FunctionKind, address: int, operand: int)

  /** The open serial port together with the library behind it: whether
      the library builds a frame for a request, and what the exchange gives
      for a built request (a write answers with the device's status word, a
      read with a register list). */
  datatype Link = Link(
    accepts: Request -> bool,
    write: Request -> Outcome<int>,
    read: Request -> Outcome<seq<int>>)

  /** The `(ret_status, response)` pair every façade operation returns. */
  datatype Status<+T> = Status(ok: bool, response: T)

  /** `except: ret_status = False; response = 0` around a control write. */
  function ControlStatus(o: Outcome<int>): Status<int>
  {
    match o
    case Ok(word) => Status(true, word)
    case Failed => Status(false, 0)
  }

  /** The same `except` around a bulk read, whose failure value 0 is an
      int where a success is a list. */
  function BulkStatus(o: Outcome<seq<int>>): Status<PyValue>
  {
    match o
    case Ok(words) => Status(true, PyList(words))
    case Failed => Status(false, PyInt(0))
  }

  /** The single-register reads substitute the list `[-1]` on failure. */
  function WordsOrSentinel(o: Outcome<seq<int>>): Status<seq<int>>
  {
    match o
    case Ok(words) => Status(true, words)
    case Failed => Status(false, [-1])
  }
}
